=== FILE: README.md ===
# Quadrant-balancing solvers, modelled in Dafny

The repository solves one problem: given weighted points in the plane, cut the
plane into four regions so that the four regions carry weights as close
together as possible. The imbalance `D` of a cut is the largest region weight
minus the smallest one. Two solvers are modelled.

- `GreedySolver.solve` cuts with one vertical and one horizontal line. It
  tries every pair (x of point k, y of point i) and keeps the first pair with
  the smallest `D`.
- `AggregateSolver.solve` cuts with two perpendicular lines through the
  weighted centroid. It turns them by offsets `θ_k = k·Δθ` for
  `k < K = floor(2π/Δθ)` and keeps the first offset with the smallest `D`. It
  stops early once `D` has failed to improve `pi` times in a row. Here the
  source's parameter `pi` is a patience count, not π.

The Dafny modules follow that structure:

- `TaskData`: the task record. Its `Task` subset type holds the invariant
  `|points| == |weights| == n`. The module also has the weighted sums.
- `Bins`: what both solvers share. Points get labels, weights are summed per
  label into four slots, and `D` is max − min of the slots. A label outside
  0..3 is dropped. For a negative label that is what the JavaScript
  `sums[idx] += w` does: it writes a non-index property that
  `Math.max(...sums)` and `Math.min(...sums)` never see. Labels of 4 or more
  do not arise: the split search never makes one, and neither does the
  angular search with atan2 in (−π, π] (see `Aggregate.EvaluatedLabelsBelowFour`).
- `Greedy`: the exhaustive split search.
  - `Greedy.Solve` is the nested loop.
  - `GreedySpec` is an independent argmin specification over the candidate
    table.
- `Sectors`: the angular binning. `Math.PI` and `Math.atan2` are parameters,
  bundled in a `Trig`. They are constrained only by π > 0 and by
  atan2 ∈ (−π, π].
  - `WrapRule.SingleCorrection` is the source's wrap.
  - `WrapRule.FullNormalization` is the corrected wrap (see Findings).
- `Aggregate`: the centroid, the step count and the patience scan.
  - `Aggregate.Solve` is the loop.
  - `PatienceScan` is the specification it meets, stated over the sequence of
    all `K` imbalances.
  - Running `Aggregate.Solve` with `SingleCorrection` gives the source's
    behaviour; running it with `FullNormalization` gives the corrected solver.

Coordinates and weights are `real`. There is no floating-point rounding.

## Model

| member | source | states |
|---|---|---|
| `Bins.Accumulate` | modules/algorithmsModule.ts:13-23 | After the loop over the points, slot b holds exactly the weight of the points labelled b; a label outside 0..3 adds to no slot |
| `Bins.BinSumsPartition` | modules/algorithmsModule.ts:13-23 | The four slot sums plus the dropped weight equal the total weight, so every point is counted exactly once |
| `Bins.DroppedWeightPositive` | modules/algorithmsModule.ts:56-66 | With non-negative weights, weight goes missing from the four sums if and only if some point of positive weight gets a label outside 0..3 |
| `Bins.LabelWeight` | modules/algorithmsModule.ts:13-23 | With non-negative weights, the weight a slot collects lies between 0 and the total weight |
| `Bins.MaxOf` | modules/algorithmsModule.ts:24 | `Math.max(...sums)` is one of the sums, and no sum exceeds it |
| `Bins.MinOf` | modules/algorithmsModule.ts:24 | `Math.min(...sums)` is one of the sums, and no sum is below it |
| `Bins.SpreadZeroIffLevel` | modules/algorithmsModule.ts:24 | `D` is zero if and only if all four sums are equal |
| `Bins.SpreadAtMostTotal` | modules/algorithmsModule.ts:24 | With non-negative weights, `0 <= D <= S` for the four slot sums |
| `Greedy.BinOf` | modules/algorithmsModule.ts:17-21 | Each point is in exactly one of bins 0..3, and each bin is characterised by its strict/non-strict comparison with `xk` and `yi` (both directions) |
| `Greedy.SplitKeepsAllWeight` | modules/algorithmsModule.ts:13-23 | For every split, the four bin sums add up to the total weight |
| `Greedy.SplitImbalanceOf` | modules/algorithmsModule.ts:13-24 | The per-candidate loop computes the candidate's imbalance, which is never negative |
| `Greedy.ScanRow` | modules/algorithmsModule.ts:10-30 | The inner loop over x sources takes the running best from the earliest best of the rows before row i to the earliest best up to and including row i |
| `Greedy.Solve` | modules/algorithmsModule.ts:3-35 | With no points, `(0, 0, Infinity)`. Otherwise the lines come from the data (`xLine = points[k].x`, `yLine = points[i].y`), `D` is that pair's imbalance, no candidate is better, and every candidate earlier in (i, k) order is strictly worse |
| `Greedy.Deterministic` | modules/algorithmsModule.ts:25-29 | Because the update is strict, the specification admits exactly one result |
| `Greedy.ContinuumReducesToCandidates` | modules/algorithmsModule.ts:9-21 | Every split by arbitrary lines `x = X`, `y = Y` has the same imbalance as some candidate split through data coordinates |
| `Greedy.GlobalOptimum` | modules/algorithmsModule.ts:9-31 | The returned `D` is finite and at most the imbalance of every axis-aligned split, not only of the candidates |
| `Greedy.SinglePoint` | modules/algorithmsModule.ts:18-21 | One point of weight w lies on its own lines, goes to bin 2, and gives the point's coordinates and `D = abs(w)` |
| `Greedy.UnitSquareResult` | modules/algorithmsModule.ts:3-35 | The unit-weight square (±1, ±1) gives `(1, 1, 0)` |
| `Sectors.QuarterIndex` | modules/algorithmsModule.ts:64 | `floor(alpha/(π/2))` is at least 0 if and only if `alpha >= 0`, below 4 if and only if `alpha < 2π`, and at least −2 if and only if `alpha >= −π` |
| `Sectors.SingleCorrectionRange` | modules/algorithmsModule.ts:61-64 | For offsets in [0, 2π), the source's index lies in −2..3, and it is non-negative if and only if `atan2 − θ >= −2π` |
| `Sectors.SingleCorrectionInRange` | modules/algorithmsModule.ts:61-64 | For offsets `θ <= π`, one `+2π` correction is enough: the index lies in 0..3 |
| `Sectors.SingleCorrectionNegativeIndex` | modules/algorithmsModule.ts:62-64 | Counterexample: direction −0.9π at offset 3π/2 gets index −1, and direction −0.95π at offset 15π/8 gets −2. The corrected wrap gives 3 and 2 |
| `Sectors.FullNormalizationAlphaRange` | modules/algorithmsModule.ts:62-63 | The corrected wrap brings every angle difference into [0, 2π) |
| `Sectors.FullNormalizationInRange` | modules/algorithmsModule.ts:62-64 | With the corrected wrap, the index lies in 0..3 for every direction and offset |
| `Sectors.FullNormalizationAgrees` | modules/algorithmsModule.ts:62-64 | Wherever the source's wrapped angle is already in [0, 2π), the corrected wrap gives the same angle and sector |
| `Sectors.SectorLabelsRange` | modules/algorithmsModule.ts:58-64 | Under the corrected wrap every label lies in 0..3. Under the source's wrap with atan2 in (−π, π], labels lie in −2..3 for offsets in [0, 2π) and in 0..3 for offsets in [0, π] |
| `Sectors.QuarterShift` | modules/algorithmsModule.ts:61-64 | For offsets θ and θ + π/2 within [0, π], the source's index at θ + π/2 is the index at θ minus one, cyclically (0 becomes 3) |
| `Sectors.QuarterTurnSameImbalance` | modules/algorithmsModule.ts:56-68 | For θ in [0, π/2], the source's imbalance at θ + π/2 equals the imbalance at θ, because the four sums are the same values in another order |
| `Sectors.StepImbalanceOf` | modules/algorithmsModule.ts:56-67 | The loop over the points computes the offset's imbalance, which is never negative |
| `Sectors.SectorsHoldAllWeight` | modules/algorithmsModule.ts:56-66 | With the corrected wrap, or with the source's wrap at offsets θ <= π, the four sector sums hold the total weight |
| `Sectors.SingleCorrectionLosesWeight` | modules/algorithmsModule.ts:56-66 | With the source's wrap, non-negative weights and θ in [0, 2π): the four sums fall short of the total weight if and only if some point of positive weight has direction below θ − 2π |
| `Aggregate.CentroidBalances` | modules/algorithmsModule.ts:42-46 | When S ≠ 0, `(xC, yC)` is the only point about which the weighted deviations vanish on each axis |
| `Aggregate.StepCountFits` | modules/algorithmsModule.ts:48-53 | For Δθ > 0, offset k lies below the loop bound `K = floor(2π/Δθ)` if and only if `(k+1)·Δθ <= 2π`, and every such offset lies in [0, 2π). Whether it is evaluated also depends on the patience stop (`Aggregate.Scan`) |
| `Aggregate.Scan` | modules/algorithmsModule.ts:49-80 | With K = 0, `(0, Infinity)` and no step. Otherwise the kept offset is the earliest minimum of the evaluated prefix, and the scan stopped at `min(K, best + max(pi, 0) + 1)` steps, with a new minimum recent enough at every step before that |
| `Aggregate.Solve` | modules/algorithmsModule.ts:37-83 | The whole solver: `CentroidUndefined` if and only if S = 0 with points to bin and K > 0; the sentinel when K = 0; otherwise the patience scan's offset and imbalance |
| `Aggregate.NoRecordBeforeStop` | modules/algorithmsModule.ts:68-79 | No new strict minimum occurs between the kept offset and the stop point |
| `Aggregate.StaleAtStop` | modules/algorithmsModule.ts:69-79 | When the scan stops before K, the last strict improvement is at least `pi` steps old |
| `Aggregate.ScanUnique` | modules/algorithmsModule.ts:53-80 | The kept offset and the number of steps are determined by the imbalances and the patience |
| `Aggregate.ZeroPatience` | modules/algorithmsModule.ts:75-77 | With `pi <= 0`, only offset 0 is evaluated and kept, and no error is raised |
| `Aggregate.FullScan` | modules/algorithmsModule.ts:53-80 | With `pi >= K`, all K offsets are evaluated and the earliest global minimum is kept |
| `Aggregate.SolveDeterministic` | modules/algorithmsModule.ts:37-83 | The specification admits exactly one outcome and one step count |
| `Aggregate.ResultIsEvaluatedOffset` | modules/algorithmsModule.ts:53-73 | For Δθ > 0, `theta` is an evaluated offset inside [0, 2π), `D` is its imbalance and is non-negative, and `D = Infinity` if and only if no step ran |
| `Aggregate.WideSteps` | modules/algorithmsModule.ts:48-82 | Δθ > 2π gives `(0, Infinity)` with no step and no error; Δθ = 2π evaluates offset 0 only |
| `Aggregate.MenuBoundIncludesNegativeIndex` | modules/uiModule.ts:113 | With the menu's Δθ = π/8, the step count is K = 16, offset 12 is 3π/2, and direction −0.9π would get index −1 there; the menu's scan stops before offset 12 (`Aggregate.MenuScanStaysInHalfTurn`) |
| `Aggregate.EvaluatedLabelsBelowFour` | modules/algorithmsModule.ts:53-64 | With atan2 in (−π, π], no point at any evaluated offset gets a sector index of 4 or more, or below −2 |
| `Aggregate.MenuScanStaysInHalfTurn` | modules/uiModule.ts:113 | Under the source's wrap, the menu's scan (patience 5, Δθ = π/8) keeps one of offsets 0..3 and stops after at most nine offsets, so it never evaluates an offset beyond π, and at every offset it evaluates the four sums hold the whole weight |
| `Aggregate.QuarterStepLosesWeight` | modules/algorithmsModule.ts:48-80 | Under the source's wrap, Δθ = π/4 with patience 5 gives K = 8, and the scan always evaluates offset 5 (5π/4). There, every point of positive weight whose direction is below −3π/4 gets a negative index, and the four sums fall short of the total weight |
| `Aggregate.FinerStepNoWorse` | modules/algorithmsModule.ts:48-80 | With patience large enough to disable the early stop, a step Δθ finds an imbalance no larger than the coarser step m·Δθ finds, for every integer m ≥ 1 |

## Left out

- Floating point: all numbers are reals. IEEE rounding is not modelled, e.g. `alpha/(π/2)` rounding up to exactly 4, or `K` differing by one from the real quotient.
- `Math.PI` and `Math.atan2` are parameters: only π > 0 and atan2 ∈ (−π, π] are assumed. Results that need their concrete values are not proved. One example is the imbalance of the aggregate solver on the unit square.
- Aggregate.Solve: the total weight S = 0 with points to bin and K > 0 is returned as `CentroidUndefined` with no step evaluated. The source divides by zero and goes on with `NaN` or `±Infinity` coordinates, and what it returns then depends on IEEE special values.
- Aggregate.Solve: Δθ = 0 makes the source's `K` infinite. Every offset is then 0, so the scan stops by patience after `max(pi, 0) + 1` steps, and the model uses that count as `K`. A negative Δθ gives K ≤ 0 and no step. A `NaN` Δθ or `NaN` patience is not modelled.
- Aggregate.Solve: the patience is an integer. The source's `number` comes from `parseInt` or the constant 5, and `stagn >= pi` with a fractional `pi` is not modelled.
- Aggregate.Solve: it accepts any atan2, not only one with values in (−π, π]. An atan2 outside that range could give a sector index of 4 or more. The model drops such a point's weight, but in the source `sums[4] += w` appends `NaN`, which makes `D` `NaN`. With atan2 in range this cannot happen (`Aggregate.EvaluatedLabelsBelowFour`).
- Task validity: the source's `Task` constructor does not check that `n`, `points` and `weights` agree. The model takes that agreement as the invariant of `Task`.
- `Task.generate` (random sampling), `Task.load` and `save` (file I/O and text parsing): I/O and randomness.
- The console menu (`modules/uiModule.ts`), `main.ts` and the timing experiments (`modules/experimentsModule.ts`): I/O, wall-clock timing and CSV output. Only the menu's choice of patience 5 and Δθ = π/8 is used, in `Aggregate.MenuBoundIncludesNegativeIndex` and `Aggregate.MenuScanStaysInHalfTurn`. With those values the scan stops by θ = π, so the menu never meets the wrap defect under Findings.
- Input validation: the source validates neither Δθ nor the patience, and the model follows it. Δθ > 2π returns the sentinel and a patience ≤ 0 runs exactly one step; neither raises an error (`Aggregate.WideSteps`, `Aggregate.ZeroPatience`).

## Findings

| source | as written | input that shows it | evidently intended | confidence | as-written member | corrected member |
|---|---|---|---|---|---|---|
| modules/algorithmsModule.ts:62-64 | A negative `alpha = atan2 − θ` gets one `+2π`. For θ > π, `alpha` can still be negative, so `floor(alpha/(π/2))` is −1 or −2 and `sums[idx] += w` writes outside the four slots. The point's weight then vanishes from `D`. | Δθ = π/4 with patience 5: the scan always evaluates offset 5 (θ = 5π/4), and a point in direction −0.9π from the centroid gets index −1 there, so its weight is left out of the four sums (`Aggregate.QuarterStepLosesWeight`). Offset 15π/8 and direction −0.95π give index −2. The menu's own Δθ = π/8 with patience 5 stops by θ = π and never shows it (`Aggregate.MenuScanStaysInHalfTurn`). | Reduce `alpha` modulo 2π, so every point lands in sectors 0..3 and the four sums hold the total weight | high, not executed | `Sectors.SingleCorrectionNegativeIndex` | `Sectors.FullNormalizationInRange` |

=== FILE: aggregate.dfy ===
/**
  The rotating-quadrant search (`AggregateSolver.solve`).

  The pivot is the weighted centroid of the points. The offsets
  `theta_k = k · deltaTheta` are taken in order `k = 0, 1, …` below the loop
  bound `K = floor(2π / deltaTheta)`, until the patience rule stops the scan. At each offset the points are binned into four
  sectors, and the imbalance `D_k` is compared with the best so far. A
  strictly smaller `D_k` becomes the new best and resets the stagnation
  counter; any other `D_k` increments it. The scan stops as soon as the
  counter reaches `patience`.

  The scan is specified against the sequence of all `K` imbalances. The
  model is pure, so the imbalances of the offsets the scan never reaches
  exist only in the specification.
 */
module Aggregate {
  import opened TaskData
  import opened Bins
  import opened Sectors

  /**
    `{ theta, D }`, or `CentroidUndefined` when the total weight is zero but
    the source would still divide by it and bin points around the result.
   */
  datatype AggregateOutcome = Solved(theta: real, d: Score) | CentroidUndefined

  function Max(a: int, b: int): int { if a >= b then a else b }
  function Min(a: int, b: int): int { if a <= b then a else b }

  /** `(Σ x·w / S, Σ y·w / S)` with `S = Σ w`. */
  function Centroid(t: Task): Point
    requires Sum(t.weights) != 0.0
  {
    var s := Sum(t.weights);
    Point(WeightedSum(Xs(t.points), t.weights) / s, WeightedSum(Ys(t.points), t.weights) / s)
  }

  /**
    The centroid is the one point about which the weighted deviations
    vanish, on each axis.
   */
  lemma CentroidBalances(t: Task, c: Point)
    requires Sum(t.weights) != 0.0
    ensures WeightedDeviation(Xs(t.points), t.weights, c.x) == 0.0 <==> c.x == Centroid(t).x
    ensures WeightedDeviation(Ys(t.points), t.weights, c.y) == 0.0 <==> c.y == Centroid(t).y
  {
    var s := Sum(t.weights);
    DeviationSplits(Xs(t.points), t.weights, c.x);
    DeviationSplits(Ys(t.points), t.weights, c.y);
    var mx, my := WeightedSum(Xs(t.points), t.weights), WeightedSum(Ys(t.points), t.weights);
    assert Centroid(t).x * s == mx;
    assert Centroid(t).y * s == my;
    if mx - c.x * s == 0.0 {
      assert c.x == mx / s;
    }
    if my - c.y * s == 0.0 {
      assert c.y == my / s;
    }
  }

  /** The pivot the sectors are measured from; with no weight there are no points to bin. */
  function Pivot(t: Task): Point {
    if Sum(t.weights) != 0.0 then Centroid(t) else Point(0.0, 0.0)
  }

  /** The offset `k · deltaTheta`. */
  function Offset(k: int, deltaTheta: real): real {
    k as real * deltaTheta
  }

  /** Offset number k still lies inside one turn: `(k + 1) · deltaTheta ≤ 2π`. */
  predicate FitsInTurn(k: int, deltaTheta: real, pi: real) {
    (k + 1) as real * deltaTheta <= 2.0 * pi
  }

  /**
    `K = Math.floor(2π / deltaTheta)` as a loop bound. A negative step gives a
    negative quotient, so `K = 0`. A zero step makes `K`
    infinite; every offset is then 0, so `D_k` never improves after the
    first one and the patience rule stops the scan after `max(patience, 0) + 1`
    offsets. That count is used as the bound.
   */
  function StepCount(deltaTheta: real, pi: real, patience: int): (k: nat)
    requires pi > 0.0
  {
    if deltaTheta > 0.0 then (2.0 * pi / deltaTheta).Floor
    else if deltaTheta < 0.0 then 0
    else Max(patience, 0) + 1
  }

  /**
    For a positive step, offset k is below the loop bound `K` exactly when it
    fits in one turn, and every such offset lies in [0, 2π): a step of 2π
    gives `K = 1` and a larger step gives `K = 0`. Whether an offset below `K`
    is evaluated also depends on the patience rule (`PatienceScan`).
   */
  lemma StepCountFits(deltaTheta: real, pi: real, patience: int, k: int)
    requires pi > 0.0 && deltaTheta > 0.0 && k >= 0
    ensures k < StepCount(deltaTheta, pi, patience) <==> FitsInTurn(k, deltaTheta, pi)
    ensures k < StepCount(deltaTheta, pi, patience) ==> 0.0 <= Offset(k, deltaTheta) < 2.0 * pi
  {
    var x := 2.0 * pi / deltaTheta;
    assert x * deltaTheta == 2.0 * pi;
    var m := (k + 1) as real;
    assert m <= x <==> m * deltaTheta <= x * deltaTheta by {
      if m <= x {
        ProductSigns(x - m, 1.0, deltaTheta);
        assert (x - m) * deltaTheta == x * deltaTheta - m * deltaTheta;
      } else {
        ProductSigns(0.0, m - x, deltaTheta);
        assert (m - x) * deltaTheta == m * deltaTheta - x * deltaTheta;
      }
    }
    var f := x.Floor;
    assert StepCount(deltaTheta, pi, patience) == f;
    assert f as real <= x < f as real + 1.0;
    assert k < f <==> m <= x by {
      if k < f {
        assert m <= f as real;
      } else {
        assert m >= f as real + 1.0;
      }
    }
    if k < x.Floor {
      ProductSigns(k as real, 1.0, deltaTheta);
      assert Offset(k, deltaTheta) == m * deltaTheta - deltaTheta;
    }
  }

  /** The imbalance at every offset below `K`. */
  function Scores(t: Task, deltaTheta: real, g: Trig, rule: WrapRule, K: nat): (ds: seq<real>)
    ensures |ds| == K
  {
    seq(K, k requires 0 <= k < K => StepImbalance(t, Pivot(t), Offset(k, deltaTheta), g, rule))
  }

  /** Offset j set a new strict minimum: every earlier imbalance is larger. */
  ghost predicate IsRecord(ds: seq<real>, j: int) {
    0 <= j < |ds| && forall i :: 0 <= i < j ==> ds[j] < ds[i]
  }

  /**
    After offset k the stagnation counter was still below `patience`: a new
    minimum was set at one of the last `patience` offsets up to k.
   */
  ghost predicate RecentRecord(ds: seq<real>, k: int, patience: int) {
    exists j :: k - patience < j <= k && IsRecord(ds, j)
  }

  /**
    A patience scan of `ds` that evaluated the first `steps` offsets and kept
    offset `best`: `best` is the earliest minimum of the evaluated prefix; the
    scan went on while a new minimum was recent enough; and it stopped at the
    end of `ds` or `max(patience, 0)` offsets after the last new minimum,
    whichever came first.
   */
  ghost predicate PatienceScan(ds: seq<real>, patience: int, best: int, steps: int) {
    && 0 <= best < steps <= |ds|
    && IsRecord(ds, best)
    && (forall k :: 0 <= k < steps ==> ds[best] <= ds[k])
    && steps == Min(|ds|, best + Max(patience, 0) + 1)
    && (forall k :: 0 <= k < steps - 1 ==> RecentRecord(ds, k, patience))
  }

  /**
    What `AggregateSolver.solve` returns, with `steps` the number of offsets
    it evaluated: the sentinel `(0, Infinity)` when there is no offset to
    try, `CentroidUndefined` exactly when the centroid divides by a zero total
    weight and is then used, and otherwise the offset the patience scan
    keeps with its imbalance.
   */
  ghost predicate AggregateSpec(t: Task, patience: int, deltaTheta: real, g: Trig, rule: WrapRule,
                                r: AggregateOutcome, steps: nat) {
    var K := StepCount(deltaTheta, g.pi, patience);
    var ds := Scores(t, deltaTheta, g, rule, K);
    && (r.CentroidUndefined? <==> Sum(t.weights) == 0.0 && |t.points| > 0 && K > 0)
    && (r.CentroidUndefined? ==> steps == 0)
    && (K == 0 ==> r == Solved(0.0, Infinity) && steps == 0)
    && (r.Solved? && K > 0 ==>
          exists b :: PatienceScan(ds, patience, b, steps) && r == Solved(Offset(b, deltaTheta), Finite(ds[b])))
  }

  /** Loop state of the scan after `k` offsets: `best` is the running `{ theta, D }`. */
  ghost predicate ScanState(ds: seq<real>, patience: int, deltaTheta: real, k: int,
                            best: AggregateOutcome, stagn: int, b: int) {
    && 0 <= k <= |ds|
    && (k == 0 ==> best == Solved(0.0, Infinity) && stagn == 0)
    && (k > 0 ==>
          && 0 <= b < k
          && IsRecord(ds, b)
          && (forall i :: 0 <= i < k ==> ds[b] <= ds[i])
          && best == Solved(Offset(b, deltaTheta), Finite(ds[b]))
          && stagn == k - 1 - b
          && stagn < patience
          && (forall i :: 0 <= i < k ==> RecentRecord(ds, i, patience)))
  }

  /** Evaluating offset k when the stagnation counter has not reached `patience` yet. */
  lemma ScanStep(ds: seq<real>, patience: int, deltaTheta: real, k: int,
                 best: AggregateOutcome, stagn: int, b: int)
    requires k < |ds|
    requires ScanState(ds, patience, deltaTheta, k, best, stagn, b)
    ensures best.Solved?
    ensures Improves(ds[k], best.d) ==>
      NextState(ds, patience, deltaTheta, k, Solved(Offset(k, deltaTheta), Finite(ds[k])), 0, k)
    ensures !Improves(ds[k], best.d) ==> k > 0 && NextState(ds, patience, deltaTheta, k, best, stagn + 1, b)
  {
    if Improves(ds[k], best.d) && 0 - patience < 0 {
      assert forall i :: 0 <= i < k + 1 ==> RecentRecord(ds, i, patience) by {
        forall i | 0 <= i < k + 1
          ensures RecentRecord(ds, i, patience)
        {
          if i == k {
            assert IsRecord(ds, k);
          }
        }
      }
    }
    if !Improves(ds[k], best.d) && stagn + 1 < patience {
      assert IsRecord(ds, b);
      assert RecentRecord(ds, k, patience);
    }
  }

  /**
    State after evaluating offset k: either the scan continues with the
    counter below `patience`, or it stops here with the counter at
    `patience` and the stop point `k + 1 = best + max(patience, 0) + 1`.
   */
  ghost predicate NextState(ds: seq<real>, patience: int, deltaTheta: real, k: int,
                            best: AggregateOutcome, stagn: int, b: int) {
    && 0 <= b <= k < |ds|
    && IsRecord(ds, b)
    && (forall i :: 0 <= i < k + 1 ==> ds[b] <= ds[i])
    && best == Solved(Offset(b, deltaTheta), Finite(ds[b]))
    && stagn == k - b
    && (stagn < patience ==> ScanState(ds, patience, deltaTheta, k + 1, best, stagn, b))
    && (stagn >= patience ==>
          k + 1 == b + Max(patience, 0) + 1 && (forall i :: 0 <= i < k ==> RecentRecord(ds, i, patience)))
  }

  /** The scan stops: at the end of the offsets, or by the patience rule. */
  lemma ScanDone(ds: seq<real>, patience: int, deltaTheta: real, steps: int,
                 best: AggregateOutcome, stagn: int, b: int)
    requires 0 < steps
    requires || (ScanState(ds, patience, deltaTheta, steps, best, stagn, b) && steps == |ds|)
             || (NextState(ds, patience, deltaTheta, steps - 1, best, stagn, b) && stagn >= patience)
    ensures PatienceScan(ds, patience, b, steps)
    ensures best == Solved(Offset(b, deltaTheta), Finite(ds[b]))
  {
  }

  /** The loop over the offsets, stopping early by the patience rule. */
  method Scan(t: Task, patience: int, deltaTheta: real, g: Trig, rule: WrapRule, K: nat)
    returns (r: AggregateOutcome, steps: nat)
    ensures K == 0 ==> r == Solved(0.0, Infinity) && steps == 0
    ensures K > 0 ==>
      var ds := Scores(t, deltaTheta, g, rule, K);
      exists b :: PatienceScan(ds, patience, b, steps) && r == Solved(Offset(b, deltaTheta), Finite(ds[b]))
  {
    ghost var ds := Scores(t, deltaTheta, g, rule, K);
    var c := Pivot(t);
    r := Solved(0.0, Infinity);
    var stagn := 0;
    ghost var b := 0;
    var k := 0;
    while k < K
      invariant ScanState(ds, patience, deltaTheta, k, r, stagn, b)
    {
      var theta := Offset(k, deltaTheta);
      var d := StepImbalanceOf(t, c, theta, g, rule);
      assert d == ds[k];
      ScanStep(ds, patience, deltaTheta, k, r, stagn, b);
      if Improves(d, r.d) {
        r := Solved(theta, Finite(d));
        stagn := 0;
        b := k;
      } else {
        stagn := stagn + 1;
      }
      k := k + 1;
      if stagn >= patience {
        ScanDone(ds, patience, deltaTheta, k, r, stagn, b);
        return r, k;
      }
    }
    steps := k;
    if K > 0 {
      ScanDone(ds, patience, deltaTheta, k, r, stagn, b);
    }
  }

  /**
    `AggregateSolver.solve(task, pi, deltaTheta)`: total weight, centroid,
    step count, then the patience scan. `rule` is the wrap the sectors use;
    the source's is `SingleCorrection`.
   */
  method Solve(t: Task, patience: int, deltaTheta: real, g: Trig, rule: WrapRule)
    returns (r: AggregateOutcome, steps: nat)
    ensures AggregateSpec(t, patience, deltaTheta, g, rule, r, steps)
  {
    var s := Sum(t.weights);
    var K := StepCount(deltaTheta, g.pi, patience);
    if s == 0.0 && |t.points| > 0 && K > 0 {
      return CentroidUndefined, 0;
    }
    r, steps := Scan(t, patience, deltaTheta, g, rule, K);
  }

  /** No new minimum is set between the kept offset and the stop point. */
  lemma NoRecordBeforeStop(ds: seq<real>, patience: int, b: int, steps: int, j: int)
    requires PatienceScan(ds, patience, b, steps)
    requires b < j < |ds| && IsRecord(ds, j)
    ensures steps <= j
  {
    assert ds[j] < ds[b];
  }

  /**
    When the scan stops before the last offset, the last new minimum is
    already `max(patience, 0)` offsets old: the counter has reached `patience`.
   */
  lemma StaleAtStop(ds: seq<real>, patience: int, b: int, steps: int)
    requires PatienceScan(ds, patience, b, steps)
    requires steps < |ds|
    ensures !RecentRecord(ds, steps - 1, patience)
  {
    forall j | steps - 1 - patience < j <= steps - 1
      ensures !IsRecord(ds, j)
    {
      assert b < j < steps;
      assert ds[b] <= ds[j];
    }
  }

  /**
    A patience scan is determined by the imbalances and the patience: no two
    choices of the kept offset or of the stop point both meet it.
   */
  lemma ScanUnique(ds: seq<real>, patience: int, b1: int, s1: int, b2: int, s2: int)
    requires PatienceScan(ds, patience, b1, s1)
    requires PatienceScan(ds, patience, b2, s2)
    ensures b1 == b2 && s1 == s2
  {
    if b1 < b2 {
      NoRecordBeforeStop(ds, patience, b1, s1, b2);
      StaleAtStop(ds, patience, b1, s1);
      assert false;
    } else if b2 < b1 {
      NoRecordBeforeStop(ds, patience, b2, s2, b1);
      StaleAtStop(ds, patience, b2, s2);
      assert false;
    }
  }

  /** With a patience of zero or less no new minimum counts as recent. */
  lemma NoPatienceNoRecentRecord(ds: seq<real>, patience: int, k: int)
    requires patience <= 0
    ensures !RecentRecord(ds, k, patience)
  {
  }

  /** With a patience of zero or less the scan evaluates offset 0 only and keeps it. */
  lemma ZeroPatience(ds: seq<real>, patience: int, b: int, steps: int)
    requires patience <= 0
    requires PatienceScan(ds, patience, b, steps)
    ensures b == 0 && steps == 1
  {
    if b > 0 {
      NoPatienceNoRecentRecord(ds, patience, 0);
      assert false;
    }
  }

  /**
    A patience of at least the number of offsets never stops the scan early:
    every offset is evaluated and the kept one is the earliest global minimum.
   */
  lemma FullScan(ds: seq<real>, patience: int, b: int, steps: int)
    requires patience >= |ds|
    requires PatienceScan(ds, patience, b, steps)
    ensures steps == |ds|
    ensures forall k :: 0 <= k < |ds| ==> ds[b] <= ds[k]
    ensures forall k :: 0 <= k < b ==> ds[b] < ds[k]
  {
  }

  /** Entry k of the scores is the imbalance at offset k. */
  lemma ScoreAt(t: Task, deltaTheta: real, g: Trig, rule: WrapRule, K: nat, k: int)
    requires 0 <= k < K
    ensures Scores(t, deltaTheta, g, rule, K)[k] == StepImbalance(t, Pivot(t), Offset(k, deltaTheta), g, rule)
  {
  }

  /**
    Offset number `k` of the step `m · deltaTheta` is offset number `k · m`
    of the step `deltaTheta`, and it lies below the finer step's loop bound
    whenever it lies below the coarser one's.
   */
  lemma CoarseOffsetIsFine(deltaTheta: real, m: int, pi: real, pf: int, pc: int, k: int)
    requires pi > 0.0 && deltaTheta > 0.0 && m >= 1
    requires 0 <= k < StepCount(m as real * deltaTheta, pi, pc)
    ensures k * m < StepCount(deltaTheta, pi, pf)
    ensures Offset(k * m, deltaTheta) == Offset(k, m as real * deltaTheta)
  {
    var coarse := m as real * deltaTheta;
    ProductSigns(1.0, 1.0, deltaTheta);
    ProductSigns(m as real - 1.0, 1.0, deltaTheta);
    StepCountFits(coarse, pi, pc, k);
    assert (k + 1) as real * coarse == (k * m + 1) as real * deltaTheta + (m as real - 1.0) * deltaTheta;
    StepCountFits(deltaTheta, pi, pf, k * m);
    assert (k * m) as real == k as real * m as real;
  }

  /** The coarser step's score at offset `k` is the finer step's score at offset `k · m`. */
  lemma CoarseScoreIsFineScore(t: Task, deltaTheta: real, m: int, g: Trig, rule: WrapRule,
                               pf: int, pc: int, k: int) returns (j: int)
    requires deltaTheta > 0.0 && m >= 1
    requires 0 <= k < StepCount(m as real * deltaTheta, g.pi, pc)
    ensures 0 <= j < StepCount(deltaTheta, g.pi, pf)
    ensures Scores(t, deltaTheta, g, rule, StepCount(deltaTheta, g.pi, pf))[j]
            == Scores(t, m as real * deltaTheta, g, rule, StepCount(m as real * deltaTheta, g.pi, pc))[k]
  {
    var coarse := m as real * deltaTheta;
    CoarseOffsetIsFine(deltaTheta, m, g.pi, pf, pc, k);
    j := k * m;
    ScoreAt(t, coarse, g, rule, StepCount(coarse, g.pi, pc), k);
    ScoreAt(t, deltaTheta, g, rule, StepCount(deltaTheta, g.pi, pf), j);
  }

  /** A full scan is at least as good as any single offset it covers. */
  lemma FullScanBeatsEntry(ds: seq<real>, patience: int, b: int, steps: int, k: int)
    requires patience >= |ds|
    requires PatienceScan(ds, patience, b, steps)
    requires 0 <= k < |ds|
    ensures ds[b] <= ds[k]
  {
    FullScan(ds, patience, b, steps);
  }

  /**
    Finer sampling is never worse. When the patience is large enough that
    neither scan stops early, a step that divides a coarser step `m ·
    deltaTheta` finds an imbalance no larger than the coarser step finds:
    every offset of the coarser scan is also an offset of the finer one.
   */
  lemma FinerStepNoWorse(t: Task, deltaTheta: real, m: int, g: Trig, rule: WrapRule,
                         pf: int, rf: AggregateOutcome, sf: nat,
                         pc: int, rc: AggregateOutcome, sc: nat)
    requires deltaTheta > 0.0 && m >= 1
    requires pf >= StepCount(deltaTheta, g.pi, pf)
    requires AggregateSpec(t, pf, deltaTheta, g, rule, rf, sf)
    requires AggregateSpec(t, pc, m as real * deltaTheta, g, rule, rc, sc)
    ensures rc.Solved? && rc.d.Finite? ==> rf.Solved? && rf.d.Finite? && rf.d.value <= rc.d.value
  {
    var coarse := m as real * deltaTheta;
    var Kf := StepCount(deltaTheta, g.pi, pf);
    var Kc := StepCount(coarse, g.pi, pc);
    if rc.Solved? && Kc > 0 {
      var dsc := Scores(t, coarse, g, rule, Kc);
      var dsf := Scores(t, deltaTheta, g, rule, Kf);
      var bc :| PatienceScan(dsc, pc, bc, sc) && rc == Solved(Offset(bc, coarse), Finite(dsc[bc]));
      var k := CoarseScoreIsFineScore(t, deltaTheta, m, g, rule, pf, pc, bc);
      assert rf.Solved?;
      var bf :| PatienceScan(dsf, pf, bf, sf) && rf == Solved(Offset(bf, deltaTheta), Finite(dsf[bf]));
      FullScanBeatsEntry(dsf, pf, bf, sf, k);
    }
  }

  /** `AggregateSolver.solve` is a function of its inputs: the specification admits one outcome. */
  lemma SolveDeterministic(t: Task, patience: int, deltaTheta: real, g: Trig, rule: WrapRule,
                           r1: AggregateOutcome, s1: nat, r2: AggregateOutcome, s2: nat)
    requires AggregateSpec(t, patience, deltaTheta, g, rule, r1, s1)
    requires AggregateSpec(t, patience, deltaTheta, g, rule, r2, s2)
    ensures r1 == r2 && s1 == s2
  {
    var K := StepCount(deltaTheta, g.pi, patience);
    var ds := Scores(t, deltaTheta, g, rule, K);
    if r1.Solved? && r2.Solved? && K > 0 {
      var b1 :| PatienceScan(ds, patience, b1, s1) && r1 == Solved(Offset(b1, deltaTheta), Finite(ds[b1]));
      var b2 :| PatienceScan(ds, patience, b2, s2) && r2 == Solved(Offset(b2, deltaTheta), Finite(ds[b2]));
      ScanUnique(ds, patience, b1, s1, b2, s2);
    }
  }

  /**
    For a positive step the returned angle is one of the evaluated offsets
    `k · deltaTheta`, inside one turn, and the returned imbalance is that
    offset's imbalance and never negative.
   */
  lemma ResultIsEvaluatedOffset(t: Task, patience: int, deltaTheta: real, g: Trig, rule: WrapRule,
                                r: AggregateOutcome, steps: nat)
    requires deltaTheta > 0.0
    requires AggregateSpec(t, patience, deltaTheta, g, rule, r, steps)
    requires r.Solved?
    ensures 0.0 <= r.theta < 2.0 * g.pi
    ensures steps == 0 <==> r.d == Infinity
    ensures r.d.Finite? ==>
      exists k :: 0 <= k < steps && r.theta == Offset(k, deltaTheta)
        && r.d.value == StepImbalance(t, Pivot(t), Offset(k, deltaTheta), g, rule)
        && r.d.value >= 0.0
  {
    var K := StepCount(deltaTheta, g.pi, patience);
    var ds := Scores(t, deltaTheta, g, rule, K);
    if K > 0 {
      var b :| PatienceScan(ds, patience, b, steps) && r == Solved(Offset(b, deltaTheta), Finite(ds[b]));
      StepCountFits(deltaTheta, g.pi, patience, b);
      assert ds[b] == StepImbalance(t, Pivot(t), Offset(b, deltaTheta), g, rule);
      assert ds[b] >= 0.0 by {
        var d := ds[b];
        assert d == Spread(BinSums(SectorLabels(t, Pivot(t), Offset(b, deltaTheta), g, rule), t.weights));
      }
    }
  }

  /**
    A step wider than a full turn evaluates nothing and returns the sentinel
    `(0, Infinity)`; a step of exactly one turn evaluates offset 0 alone.
   */
  lemma WideSteps(t: Task, patience: int, deltaTheta: real, g: Trig, rule: WrapRule,
                  r: AggregateOutcome, steps: nat)
    requires deltaTheta >= 2.0 * g.pi
    requires AggregateSpec(t, patience, deltaTheta, g, rule, r, steps)
    ensures deltaTheta > 2.0 * g.pi ==> r == Solved(0.0, Infinity) && steps == 0
    ensures deltaTheta == 2.0 * g.pi && r.Solved? ==> r.theta == 0.0 && r.d.Finite? && steps == 1
  {
    StepCountFits(deltaTheta, g.pi, patience, 0);
    StepCountFits(deltaTheta, g.pi, patience, 1);
    if deltaTheta == 2.0 * g.pi && r.Solved? {
      var ds := Scores(t, deltaTheta, g, rule, 1);
      var b :| PatienceScan(ds, patience, b, steps) && r == Solved(Offset(b, deltaTheta), Finite(ds[b]));
    }
  }

  /**
    With the step `π/8` the interactive menu uses, the step count is
    `K = 16` and offset 12 (`3π/2`) lies below it; a point in direction
    `−0.9π` from the centroid would get sector index −1 there. The loop
    bound alone does not decide it: with the menu's patience of 5 the scan
    stops by offset 8 (`MenuScanStaysInHalfTurn`).
   */
  lemma MenuBoundIncludesNegativeIndex(pi: real, patience: int)
    requires pi > 0.0
    ensures StepCount(pi / 8.0, pi, patience) == 16
    ensures Offset(12, pi / 8.0) == 1.5 * pi
    ensures SectorIndex(SingleCorrection, -0.9 * pi, Offset(12, pi / 8.0), pi) == -1
  {
    var x := 2.0 * pi / (pi / 8.0);
    assert x == 16.0;
    SingleCorrectionNegativeIndex(pi);
  }

  /**
    At every offset the scan can evaluate, with atan2 in (−π, π], no point
    gets a sector index of 4 or above, and none gets an index below −2.
   */
  lemma EvaluatedLabelsBelowFour(t: Task, patience: int, deltaTheta: real, g: Trig, rule: WrapRule, k: int)
    requires AtanInRange(g)
    requires 0 <= k < StepCount(deltaTheta, g.pi, patience)
    ensures forall j :: 0 <= j < |t.points| ==>
      -2 <= SectorLabels(t, Pivot(t), Offset(k, deltaTheta), g, rule)[j] < 4
  {
    if deltaTheta > 0.0 {
      StepCountFits(deltaTheta, g.pi, patience, k);
    } else {
      assert deltaTheta == 0.0;
      assert Offset(k, deltaTheta) == 0.0;
    }
    SectorLabelsRange(t, Pivot(t), Offset(k, deltaTheta), g, rule);
  }

  /**
    With the step `π/8`, offsets 4..8 repeat the imbalances of offsets 0..4:
    below π a quarter turn only renames the source's sectors.
   */
  lemma MenuScoresRepeat(t: Task, g: Trig, k: int)
    requires AtanInRange(g)
    requires 0 <= k <= 4
    ensures var ds := Scores(t, g.pi / 8.0, g, SingleCorrection, 16);
      ds[k + 4] == ds[k]
  {
    var dt := g.pi / 8.0;
    var theta := Offset(k, dt);
    ProductSigns(k as real, 1.0, dt);
    ProductSigns(4.0 - k as real, 1.0, dt);
    assert (4.0 - k as real) * dt == 4.0 * dt - theta;
    assert Offset(k + 4, dt) == theta + g.pi / 2.0;
    QuarterTurnSameImbalance(t, Pivot(t), theta, g);
  }

  /** Repeated imbalances leave no room for a new minimum at offsets 4..8. */
  lemma NoRecordInSecondQuarter(ds: seq<real>)
    requires |ds| >= 9
    requires forall k :: 0 <= k <= 4 ==> ds[k + 4] == ds[k]
    ensures forall j :: 4 <= j <= 8 ==> !IsRecord(ds, j)
  {
    forall j | 4 <= j <= 8
      ensures !IsRecord(ds, j)
    {
      assert ds[j] == ds[j - 4];
    }
  }

  /** At offset number k the four sector sums hold the whole weight. */
  ghost predicate OffsetKeepsWeight(t: Task, deltaTheta: real, k: int, g: Trig, rule: WrapRule) {
    var s := BinSums(SectorLabels(t, Pivot(t), Offset(k, deltaTheta), g, rule), t.weights);
    s[0] + s[1] + s[2] + s[3] == Sum(t.weights)
  }

  /**
    The interactive menu's scan (patience 5, step `π/8`) under the source's
    wrap never passes the half turn: it keeps one of the offsets 0..3 and
    stops after at most nine offsets, so every evaluated offset lies in
    [0, π], where every point lands in a sector and the four sums hold the
    whole weight. The menu therefore never meets the wrap defect.
   */
  lemma MenuScanStaysInHalfTurn(t: Task, g: Trig, dt: real, b: int, steps: int)
    requires AtanInRange(g)
    requires dt == g.pi / 8.0
    requires PatienceScan(Scores(t, dt, g, SingleCorrection, StepCount(dt, g.pi, 5)), 5, b, steps)
    ensures b <= 3 && steps <= 9
    ensures Offset(steps - 1, dt) <= g.pi
    ensures forall k :: 0 <= k < steps ==> OffsetKeepsWeight(t, dt, k, g, SingleCorrection)
  {
    MenuBoundIncludesNegativeIndex(g.pi, 5);
    var ds := Scores(t, dt, g, SingleCorrection, 16);
    forall k | 0 <= k <= 4
      ensures ds[k + 4] == ds[k]
    {
      MenuScoresRepeat(t, g, k);
    }
    NoRecordInSecondQuarter(ds);
    assert !RecentRecord(ds, 8, 5);
    assert steps <= 9;
    forall k | 0 <= k < steps
      ensures 0.0 <= Offset(k, dt) <= g.pi
      ensures OffsetKeepsWeight(t, dt, k, g, SingleCorrection)
    {
      ProductSigns(k as real, 1.0, dt);
      ProductSigns(8.0 - k as real, 1.0, dt);
      assert (8.0 - k as real) * dt == g.pi - Offset(k, dt);
      SectorsHoldAllWeight(t, Pivot(t), Offset(k, dt), g, SingleCorrection);
    }
  }

  /** The step `π/4` gives `K = 8` offsets, the sixth of them at `5π/4`. */
  lemma QuarterStepCount(pi: real, patience: int)
    requires pi > 0.0
    ensures StepCount(pi / 4.0, pi, patience) == 8
    ensures Offset(5, pi / 4.0) == 1.25 * pi
  {
    var x := 2.0 * pi / (pi / 4.0);
    assert x == 8.0;
  }

  /**
    With the step `π/4` and the menu's patience of 5 the scan always reaches
    offset 5, that is `5π/4`: there are `K = 8` offsets and the scan stops
    no earlier than six offsets. Under the source's wrap, any point of
    positive weight whose direction from the centroid is below `−3π/4`
    (for example `−0.9π`, which gets index −1) is then left out of the four
    sector sums, so that offset's imbalance ignores its weight.
   */
  lemma QuarterStepLosesWeight(t: Task, g: Trig, b: int, steps: int, j: int)
    requires AtanInRange(g)
    requires forall i :: 0 <= i < |t.weights| ==> t.weights[i] >= 0.0
    requires PatienceScan(Scores(t, g.pi / 4.0, g, SingleCorrection, StepCount(g.pi / 4.0, g.pi, 5)), 5, b, steps)
    requires 0 <= j < |t.points| && t.weights[j] > 0.0
    requires Direction(t, Pivot(t), g, j) < -0.75 * g.pi
    ensures StepCount(g.pi / 4.0, g.pi, 5) == 8
    ensures 5 < steps && Offset(5, g.pi / 4.0) == 1.25 * g.pi
    ensures SectorLabels(t, Pivot(t), Offset(5, g.pi / 4.0), g, SingleCorrection)[j] < 0
    ensures var s := BinSums(SectorLabels(t, Pivot(t), Offset(5, g.pi / 4.0), g, SingleCorrection), t.weights);
      s[0] + s[1] + s[2] + s[3] < Sum(t.weights)
  {
    QuarterStepCount(g.pi, 5);
    var theta := Offset(5, g.pi / 4.0);
    SingleCorrectionRange(Direction(t, Pivot(t), g, j), theta, g.pi);
    SingleCorrectionLosesWeight(t, Pivot(t), theta, g);
  }
}

=== FILE: bins.dfy ===
/**
  What the two solvers share: every point gets a label (the bin or sector it
  falls in), the weights are summed per label into a four-slot array, and the
  imbalance of the partition is the largest slot minus the smallest one.

  A label outside 0..3 is dropped. For a negative label this is what the
  source does: `sums[-1] += w` writes a property of the sums array that
  `Math.max(...sums)` and `Math.min(...sums)` never see, so the point's
  weight is lost from the imbalance. The solvers never produce a label of 4
  or above: the split search by construction (`Greedy.BinOf`), the angular
  search with atan2 in (−π, π] (`Aggregate.EvaluatedLabelsBelowFour`).
 */
module Bins {
  import opened TaskData

  /** The `Infinity` the solvers start their best imbalance at, or a real imbalance. */
  datatype Score = Finite(value: real) | Infinity

  /** `d < best` with `Infinity` above every real. */
  predicate Improves(d: real, best: Score) {
    match best
    case Infinity => true
    case Finite(v) => d < v
  }

  /** Weight carried by the points whose label is `b`. */
  function LabelWeight(labels: seq<int>, ws: seq<real>, b: int): (r: real)
    requires |labels| == |ws|
    ensures (forall j :: 0 <= j < |ws| ==> ws[j] >= 0.0) ==> 0.0 <= r <= Sum(ws)
    decreases |ws|
  {
    if |ws| == 0 then 0.0
    else
      var m := |ws| - 1;
      LabelWeight(labels[..m], ws[..m], b) + (if labels[m] == b then ws[m] else 0.0)
  }

  /** Weight carried by the points whose label names no slot of the array. */
  function DroppedWeight(labels: seq<int>, ws: seq<real>): real
    requires |labels| == |ws|
    decreases |ws|
  {
    if |ws| == 0 then 0.0
    else
      var m := |ws| - 1;
      DroppedWeight(labels[..m], ws[..m]) + (if 0 <= labels[m] < 4 then 0.0 else ws[m])
  }

  /** The four slot sums, slot `b` holding the weight labelled `b`. */
  function BinSums(labels: seq<int>, ws: seq<real>): (s: seq<real>)
    requires |labels| == |ws|
    ensures |s| == 4
  {
    [LabelWeight(labels, ws, 0), LabelWeight(labels, ws, 1),
     LabelWeight(labels, ws, 2), LabelWeight(labels, ws, 3)]
  }

  /**
    The four slots and the dropped weight together hold every point's weight
    exactly once.
   */
  lemma {:induction false} BinSumsPartition(labels: seq<int>, ws: seq<real>)
    requires |labels| == |ws|
    ensures var s := BinSums(labels, ws);
      s[0] + s[1] + s[2] + s[3] + DroppedWeight(labels, ws) == Sum(ws)
    decreases |ws|
  {
    if |ws| > 0 {
      var m := |ws| - 1;
      BinSumsPartition(labels[..m], ws[..m]);
    }
  }

  /** When every label names a slot, nothing is dropped. */
  lemma {:induction false} NothingDropped(labels: seq<int>, ws: seq<real>)
    requires |labels| == |ws|
    requires forall j :: 0 <= j < |labels| ==> 0 <= labels[j] < 4
    ensures DroppedWeight(labels, ws) == 0.0
    decreases |ws|
  {
    if |ws| > 0 {
      var m := |ws| - 1;
      NothingDropped(labels[..m], ws[..m]);
    }
  }

  /**
    With non-negative weights, weight is lost exactly when some point of
    positive weight carries a label outside 0..3.
   */
  lemma {:induction false} DroppedWeightPositive(labels: seq<int>, ws: seq<real>)
    requires |labels| == |ws|
    requires forall j :: 0 <= j < |ws| ==> ws[j] >= 0.0
    ensures DroppedWeight(labels, ws) >= 0.0
    ensures DroppedWeight(labels, ws) > 0.0 <==>
      exists j :: 0 <= j < |ws| && !(0 <= labels[j] < 4) && ws[j] > 0.0
    decreases |ws|
  {
    if |ws| > 0 {
      var m := |ws| - 1;
      DroppedWeightPositive(labels[..m], ws[..m]);
      if DroppedWeight(labels[..m], ws[..m]) > 0.0 {
        var j :| 0 <= j < m && !(0 <= labels[..m][j] < 4) && ws[..m][j] > 0.0;
        assert !(0 <= labels[j] < 4) && ws[j] > 0.0;
      }
      if exists j :: 0 <= j < |ws| && !(0 <= labels[j] < 4) && ws[j] > 0.0 {
        var j :| 0 <= j < |ws| && !(0 <= labels[j] < 4) && ws[j] > 0.0;
        if j < m {
          assert !(0 <= labels[..m][j] < 4) && ws[..m][j] > 0.0;
        }
      }
    }
  }

  /**
    Relabelling every point through an injective slot map `perm` moves the
    weight of slot `b` to slot `perm[b]` and changes nothing else.
   */
  lemma {:induction false} RelabelMovesWeight(l1: seq<int>, l2: seq<int>, ws: seq<real>, perm: seq<int>, b: int)
    requires |l1| == |ws| && |l2| == |ws| && |perm| == 4
    requires forall j :: 0 <= j < |l1| ==> 0 <= l1[j] < 4
    requires forall j :: 0 <= j < |l1| ==> l2[j] == perm[l1[j]]
    requires forall a, c :: 0 <= a < 4 && 0 <= c < 4 && perm[a] == perm[c] ==> a == c
    requires 0 <= b < 4
    ensures LabelWeight(l2, ws, perm[b]) == LabelWeight(l1, ws, b)
    decreases |ws|
  {
    if |ws| > 0 {
      var m := |ws| - 1;
      RelabelMovesWeight(l1[..m], l2[..m], ws[..m], perm, b);
    }
  }

  /**
    The accumulation loop over the points: each point's weight is added to
    the slot its label names, and a label outside 0..3 adds to no slot.
   */
  method Accumulate(labels: seq<int>, ws: seq<real>) returns (sums: seq<real>)
    requires |labels| == |ws|
    ensures |sums| == 4
    ensures forall b :: 0 <= b < 4 ==> sums[b] == LabelWeight(labels, ws, b)
  {
    sums := [0.0, 0.0, 0.0, 0.0];
    var j := 0;
    while j < |ws|
      invariant 0 <= j <= |ws|
      invariant |sums| == 4
      invariant forall b :: 0 <= b < 4 ==> sums[b] == LabelWeight(labels[..j], ws[..j], b)
    {
      var idx := labels[j];
      if 0 <= idx < 4 {
        sums := sums[idx := sums[idx] + ws[j]];
      }
      assert labels[..j + 1][..j] == labels[..j];
      assert ws[..j + 1][..j] == ws[..j];
      j := j + 1;
    }
    assert labels[..j] == labels;
    assert ws[..j] == ws;
  }

  /** `Math.max(...s)`: an element of `s` that no element exceeds. */
  function MaxOf(s: seq<real>): (m: real)
    requires |s| > 0
    ensures m in s
    ensures forall i :: 0 <= i < |s| ==> s[i] <= m
    decreases |s|
  {
    if |s| == 1 then s[0]
    else
      var rest := MaxOf(s[..|s| - 1]);
      if rest >= s[|s| - 1] then rest else s[|s| - 1]
  }

  /** `Math.min(...s)`: an element of `s` that no element undercuts. */
  function MinOf(s: seq<real>): (m: real)
    requires |s| > 0
    ensures m in s
    ensures forall i :: 0 <= i < |s| ==> m <= s[i]
    decreases |s|
  {
    if |s| == 1 then s[0]
    else
      var rest := MinOf(s[..|s| - 1]);
      if rest <= s[|s| - 1] then rest else s[|s| - 1]
  }

  /** The imbalance `max − min` of the slot sums; it is never negative. */
  function Spread(s: seq<real>): (d: real)
    requires |s| > 0
    ensures d >= 0.0
  {
    MaxOf(s) - MinOf(s)
  }

  /** The imbalance is zero exactly when every slot holds the same weight. */
  lemma SpreadZeroIffLevel(s: seq<real>)
    requires |s| > 0
    ensures Spread(s) == 0.0 <==> forall i, j :: 0 <= i < |s| && 0 <= j < |s| ==> s[i] == s[j]
  {
    if forall i, j :: 0 <= i < |s| && 0 <= j < |s| ==> s[i] == s[j] {
      var a :| 0 <= a < |s| && s[a] == MaxOf(s);
      var b :| 0 <= b < |s| && s[b] == MinOf(s);
      assert s[a] == s[b];
    }
  }

  /** The imbalance only depends on which values occur, not on their slots. */
  lemma SpreadSameElements(s: seq<real>, t: seq<real>)
    requires |s| > 0 && |t| > 0
    requires forall i :: 0 <= i < |s| ==> s[i] in t
    requires forall i :: 0 <= i < |t| ==> t[i] in s
    ensures Spread(s) == Spread(t)
  {
    var i :| 0 <= i < |t| && t[i] == MaxOf(s);
    var j :| 0 <= j < |s| && s[j] == MaxOf(t);
    var k :| 0 <= k < |t| && t[k] == MinOf(s);
    var l :| 0 <= l < |s| && s[l] == MinOf(t);
  }

  /**
    With non-negative weights the imbalance of the four slot sums is at most
    the total weight.
   */
  lemma SpreadAtMostTotal(labels: seq<int>, ws: seq<real>)
    requires |labels| == |ws|
    requires forall j :: 0 <= j < |ws| ==> ws[j] >= 0.0
    ensures Spread(BinSums(labels, ws)) <= Sum(ws)
  {
    var s := BinSums(labels, ws);
    assert forall i :: 0 <= i < 4 ==> 0.0 <= s[i] <= Sum(ws);
  }
}

=== FILE: greedy.dfy ===
/**
  The exhaustive axis-aligned split search (`GreedySolver.solve`).

  Every ordered pair (y of point i, x of point k) is tried as a horizontal and
  a vertical line; the points are binned into the four quadrants the two
  lines make, and the pair whose four bin weights are closest together wins.
  The outer loop runs over the point supplying y, the inner loop over the
  point supplying x, and only a strictly smaller imbalance replaces the best,
  so among equally good pairs the first one met is kept.
 */
module Greedy {
  import opened TaskData
  import opened Bins

  /** `{ xLine, yLine, D }`; `D` is `Infinity` when there was nothing to try. */
  datatype GreedyResult = GreedyResult(xLine: real, yLine: real, d: Score)

  /**
    The bin of point `p` against the lines `x = xk` and `y = yi`: 0 below-left,
    1 below-right, 2 above-right, 3 above-left, with a point on a line counted
    on its right or upper side. Every point is in exactly one of the four.
   */
  function BinOf(p: Point, xk: real, yi: real): (b: int)
    ensures 0 <= b < 4
    ensures b == 0 <==> p.x < xk && p.y < yi
    ensures b == 1 <==> p.x >= xk && p.y < yi
    ensures b == 2 <==> p.x >= xk && p.y >= yi
    ensures b == 3 <==> p.x < xk && p.y >= yi
  {
    if p.x < xk && p.y < yi then 0
    else if p.x >= xk && p.y < yi then 1
    else if p.x >= xk && p.y >= yi then 2
    else 3
  }

  /** The bin of every point, in order. */
  function SplitLabels(pts: seq<Point>, xk: real, yi: real): (l: seq<int>)
    ensures |l| == |pts|
    ensures forall j :: 0 <= j < |l| ==> 0 <= l[j] < 4
    ensures forall j :: 0 <= j < |pts| ==> l[j] == BinOf(pts[j], xk, yi)
  {
    seq(|pts|, j requires 0 <= j < |pts| => BinOf(pts[j], xk, yi))
  }

  /** The imbalance of the four bins made by the lines `x = xk`, `y = yi`. */
  function SplitImbalance(t: Task, xk: real, yi: real): real
  {
    Spread(BinSums(SplitLabels(t.points, xk, yi), t.weights))
  }

  /**
    The four quadrant sums of any split hold the whole weight between them:
    every point lands in one quadrant and none is dropped.
   */
  lemma SplitKeepsAllWeight(t: Task, xk: real, yi: real)
    ensures var s := BinSums(SplitLabels(t.points, xk, yi), t.weights);
      s[0] + s[1] + s[2] + s[3] == Sum(t.weights)
  {
    var l := SplitLabels(t.points, xk, yi);
    NothingDropped(l, t.weights);
    BinSumsPartition(l, t.weights);
  }

  /** The candidate with y from point `i` and x from point `k`. */
  function CandidateD(t: Task, i: int, k: int): real
    requires 0 <= i < |t.points| && 0 <= k < |t.points|
  {
    SplitImbalance(t, t.points[k].x, t.points[i].y)
  }

  /** The imbalance of every candidate: row `i` supplies y, column `k` supplies x. */
  function Candidates(t: Task): (m: seq<seq<real>>)
    ensures |m| == |t.points|
    ensures IsGrid(m)
  {
    seq(|t.points|, i requires 0 <= i < |t.points| =>
      seq(|t.points|, k requires 0 <= k < |t.points| => CandidateD(t, i, k)))
  }

  /** One cell of the candidate table. */
  lemma CandidateAt(t: Task, i: int, k: int)
    requires 0 <= i < |t.points| && 0 <= k < |t.points|
    ensures Candidates(t)[i][k] == SplitImbalance(t, t.points[k].x, t.points[i].y)
  {
  }

  /** Pair (i1, k1) is tried before pair (i2, k2): outer index first, then inner. */
  predicate PairBefore(i1: int, k1: int, i2: int, k2: int) {
    i1 < i2 || (i1 == i2 && k1 < k2)
  }

  /** An n-by-n table of scores. */
  predicate IsGrid(m: seq<seq<real>>) {
    forall i :: 0 <= i < |m| ==> |m[i]| == |m|
  }

  /**
    (bi, bk) holds the least score among the cells tried before (i, k), and no
    cell tried before it ties that score.
   */
  ghost predicate BestBefore(m: seq<seq<real>>, i: int, k: int, bi: int, bk: int)
    requires IsGrid(m)
  {
    var n := |m|;
    && 0 <= bi < n && 0 <= bk < n
    && PairBefore(bi, bk, i, k)
    && (forall i2, k2 :: 0 <= i2 < n && 0 <= k2 < n && PairBefore(i2, k2, i, k) ==> m[bi][bk] <= m[i2][k2])
    && (forall i2, k2 :: 0 <= i2 < n && 0 <= k2 < n && PairBefore(i2, k2, bi, bk) ==> m[bi][bk] < m[i2][k2])
  }

  /** (i, k) has the least score of the whole grid and no earlier cell ties it. */
  ghost predicate IsEarliestBest(m: seq<seq<real>>, i: int, k: int)
    requires IsGrid(m)
  {
    BestBefore(m, |m|, 0, i, k)
  }

  /**
    What the search returns: the sentinel `(0, 0, Infinity)` for an empty
    task, and otherwise the lines through the earliest best candidate with
    that candidate's imbalance.
   */
  ghost predicate GreedySpec(t: Task, r: GreedyResult) {
    && (|t.points| == 0 ==> r == GreedyResult(0.0, 0.0, Infinity))
    && (|t.points| > 0 ==>
          exists i, k :: IsEarliestBest(Candidates(t), i, k) &&
            r == GreedyResult(t.points[k].x, t.points[i].y, Finite(Candidates(t)[i][k])))
  }

  /**
    Loop state of the search: `best` is the running `{ xLine, yLine, D }`.
    Before the first cell it is the sentinel; afterwards it is the earliest
    best cell (bi, bk) among the cells tried before (i, k).
   */
  ghost predicate Tracks(t: Task, i: int, k: int, best: GreedyResult, bi: int, bk: int) {
    var m := Candidates(t);
    if i == 0 && k == 0 then best == GreedyResult(0.0, 0.0, Infinity)
    else
      && BestBefore(m, i, k, bi, bk)
      && best == GreedyResult(t.points[bk].x, t.points[bi].y, Finite(m[bi][bk]))
  }

  /** Finishing a row of the inner loop is starting the next row. */
  lemma RowDone(t: Task, i: int, best: GreedyResult, bi: int, bk: int)
    requires 0 <= i < |t.points|
    requires Tracks(t, i, |t.points|, best, bi, bk)
    ensures Tracks(t, i + 1, 0, best, bi, bk)
  {
    var m, n := Candidates(t), |t.points|;
    forall i2, k2 | 0 <= i2 < n && 0 <= k2 < n && PairBefore(i2, k2, i + 1, 0)
      ensures m[bi][bk] <= m[i2][k2]
    {
      assert PairBefore(i2, k2, i, n);
    }
  }

  /** The first cell tried is the best of the cells tried so far. */
  lemma FirstStep(m: seq<seq<real>>)
    requires IsGrid(m) && |m| > 0
    ensures BestBefore(m, 0, 1, 0, 0)
  {
  }

  /** A cell that beats the best so far becomes the best of the cells up to it. */
  lemma StepImproves(m: seq<seq<real>>, i: int, k: int, bi: int, bk: int)
    requires IsGrid(m) && 0 <= i < |m| && 0 <= k < |m|
    requires BestBefore(m, i, k, bi, bk)
    requires m[i][k] < m[bi][bk]
    ensures BestBefore(m, i, k + 1, i, k)
  {
  }

  /** A cell that does not beat the best so far leaves it the best. */
  lemma StepKeeps(m: seq<seq<real>>, i: int, k: int, bi: int, bk: int)
    requires IsGrid(m) && 0 <= i < |m| && 0 <= k < |m|
    requires BestBefore(m, i, k, bi, bk)
    requires m[bi][bk] <= m[i][k]
    ensures BestBefore(m, i, k + 1, bi, bk)
  {
  }

  /**
    Trying cell (i, k) with imbalance `d`: a strictly smaller `d` replaces the
    best, anything else leaves it.
   */
  lemma CellDone(t: Task, i: int, k: int, best: GreedyResult, bi: int, bk: int, d: real)
    requires 0 <= i < |t.points| && 0 <= k < |t.points|
    requires Tracks(t, i, k, best, bi, bk)
    requires d == SplitImbalance(t, t.points[k].x, t.points[i].y)
    ensures Improves(d, best.d) ==>
      Tracks(t, i, k + 1, GreedyResult(t.points[k].x, t.points[i].y, Finite(d)), i, k)
    ensures !Improves(d, best.d) ==> Tracks(t, i, k + 1, best, bi, bk)
  {
    var m := Candidates(t);
    CandidateAt(t, i, k);
    if Improves(d, best.d) {
      if i > 0 || k > 0 {
        StepImproves(m, i, k, bi, bk);
      } else {
        FirstStep(m);
      }
    } else {
      StepKeeps(m, i, k, bi, bk);
    }
  }

  /** After the last row the state is a result meeting the specification. */
  lemma AllDone(t: Task, best: GreedyResult, bi: int, bk: int)
    requires Tracks(t, |t.points|, 0, best, bi, bk)
    ensures GreedySpec(t, best)
  {
    if |t.points| > 0 {
      assert IsEarliestBest(Candidates(t), bi, bk);
    }
  }

  /** One candidate: bin every point against `x = xk`, `y = yi` and take `max − min`. */
  method SplitImbalanceOf(t: Task, xk: real, yi: real) returns (d: real)
    ensures d == SplitImbalance(t, xk, yi)
    ensures d >= 0.0
  {
    var sums := Accumulate(SplitLabels(t.points, xk, yi), t.weights);
    assert sums == BinSums(SplitLabels(t.points, xk, yi), t.weights);
    d := Spread(sums);
  }

  /**
    The inner loop of `GreedySolver.solve` for the row whose y comes from
    point `i`: the running best moves from "best before row i" to "best
    before row i + 1".
   */
  method ScanRow(t: Task, i: int, best: GreedyResult, ghost bi: int, ghost bk: int)
    returns (best': GreedyResult, ghost bi': int, ghost bk': int)
    requires 0 <= i < |t.points|
    requires Tracks(t, i, 0, best, bi, bk)
    ensures Tracks(t, i + 1, 0, best', bi', bk')
  {
    var n := |t.points|;
    best', bi', bk' := best, bi, bk;
    var k := 0;
    while k < n
      invariant 0 <= k <= n
      invariant Tracks(t, i, k, best', bi', bk')
    {
      var xk := t.points[k].x;
      var yi := t.points[i].y;
      var d := SplitImbalanceOf(t, xk, yi);
      CellDone(t, i, k, best', bi', bk', d);
      if Improves(d, best'.d) {
        best' := GreedyResult(xk, yi, Finite(d));
        bi', bk' := i, k;
      }
      k := k + 1;
    }
    RowDone(t, i, best', bi', bk');
  }

  /** `GreedySolver.solve`: the outer loop over the point supplying y. */
  method Solve(t: Task) returns (r: GreedyResult)
    ensures GreedySpec(t, r)
  {
    var n := |t.points|;
    r := GreedyResult(0.0, 0.0, Infinity);
    ghost var bi, bk := 0, 0;
    var i := 0;
    while i < n
      invariant 0 <= i <= n
      invariant Tracks(t, i, 0, r, bi, bk)
    {
      r, bi, bk := ScanRow(t, i, r, bi, bk);
      i := i + 1;
    }
    AllDone(t, r, bi, bk);
  }

  /** Two results that both meet the specification are the same result. */
  lemma Deterministic(t: Task, r1: GreedyResult, r2: GreedyResult)
    requires GreedySpec(t, r1) && GreedySpec(t, r2)
    ensures r1 == r2
  {
    if |t.points| > 0 {
      var m := Candidates(t);
      var i1, k1 :| IsEarliestBest(m, i1, k1) &&
        r1 == GreedyResult(t.points[k1].x, t.points[i1].y, Finite(m[i1][k1]));
      var i2, k2 :| IsEarliestBest(m, i2, k2) &&
        r2 == GreedyResult(t.points[k2].x, t.points[i2].y, Finite(m[i2][k2]));
      assert !PairBefore(i1, k1, i2, k2) && !PairBefore(i2, k2, i1, k1);
    }
  }

  /** Among the values `xs`, the least one that is at least `bound`. */
  lemma LeastAtLeast(xs: seq<real>, bound: real) returns (k: int)
    requires exists j :: 0 <= j < |xs| && xs[j] >= bound
    ensures 0 <= k < |xs| && xs[k] >= bound
    ensures forall j :: 0 <= j < |xs| && xs[j] >= bound ==> xs[k] <= xs[j]
    decreases |xs|
  {
    var m := |xs| - 1;
    if exists j :: 0 <= j < m && xs[j] >= bound {
      var j0 :| 0 <= j0 < m && xs[j0] >= bound;
      assert xs[..m][j0] >= bound;
      var k0 := LeastAtLeast(xs[..m], bound);
      assert xs[..m][k0] == xs[k0];
      if xs[m] >= bound && xs[m] < xs[k0] {
        k := m;
      } else {
        k := k0;
      }
      forall j | 0 <= j < |xs| && xs[j] >= bound
        ensures xs[k] <= xs[j]
      {
        if j < m {
          assert xs[..m][j] == xs[j];
        }
      }
    } else {
      k := m;
    }
  }

  /**
    A coordinate of the data that splits the values `xs` the way the line
    `X` does, or, when every value lies below `X`, the way its mirror image
    does (all values on the other side).
   */
  lemma CutAtData(xs: seq<real>, X: real) returns (k: int, flip: bool)
    requires |xs| > 0
    ensures 0 <= k < |xs|
    ensures forall j :: 0 <= j < |xs| ==> ((xs[j] < xs[k]) <==> ((xs[j] < X) != flip))
  {
    if exists j :: 0 <= j < |xs| && xs[j] >= X {
      k := LeastAtLeast(xs, X);
      flip := false;
    } else {
      var lo := MinOf(xs);
      k := LeastAtLeast(xs, lo);
      flip := true;
    }
  }

  /** The bin renaming caused by moving every point to the other side of one or both lines. */
  function FlipPerm(fx: bool, fy: bool): (perm: seq<int>)
    ensures |perm| == 4
    ensures forall b :: 0 <= b < 4 ==> 0 <= perm[b] < 4 && perm[perm[b]] == b
  {
    if !fx && !fy then [0, 1, 2, 3]
    else if fx && !fy then [1, 0, 3, 2]
    else if !fx && fy then [3, 2, 1, 0]
    else [2, 3, 0, 1]
  }

  /** A point whose sides are flipped by (fx, fy) changes bin through FlipPerm. */
  lemma PointFlip(p: Point, X: real, Y: real, xk: real, yi: real, fx: bool, fy: bool)
    requires (p.x < xk) == ((p.x < X) != fx)
    requires (p.y < yi) == ((p.y < Y) != fy)
    ensures BinOf(p, xk, yi) == FlipPerm(fx, fy)[BinOf(p, X, Y)]
  {
  }

  /**
    Every split by arbitrary lines `x = X`, `y = Y` has the imbalance of some
    candidate pair: restricting the search to the points' own coordinates
    loses nothing. A line past all the points puts them all on one side,
    which the data's least coordinate does too with the bins renamed.
   */
  lemma ContinuumReducesToCandidates(t: Task, X: real, Y: real) returns (i: int, k: int)
    requires |t.points| > 0
    ensures 0 <= i < |t.points| && 0 <= k < |t.points|
    ensures CandidateD(t, i, k) == SplitImbalance(t, X, Y)
  {
    var pts, ws := t.points, t.weights;
    var xs, ys := Xs(pts), Ys(pts);
    var fx, fy: bool;
    k, fx := CutAtData(xs, X);
    i, fy := CutAtData(ys, Y);
    var perm := FlipPerm(fx, fy);
    var l1 := SplitLabels(pts, X, Y);
    var l2 := SplitLabels(pts, pts[k].x, pts[i].y);
    forall j | 0 <= j < |pts|
      ensures l2[j] == perm[l1[j]]
    {
      assert xs[j] == pts[j].x && ys[j] == pts[j].y;
      PointFlip(pts[j], X, Y, pts[k].x, pts[i].y, fx, fy);
    }
    var s1 := BinSums(l1, ws);
    var s2 := BinSums(l2, ws);
    forall b | 0 <= b < 4
      ensures s2[perm[b]] == s1[b]
    {
      RelabelMovesWeight(l1, l2, ws, perm, b);
    }
    forall b | 0 <= b < 4
      ensures s1[b] in s2 && s2[b] in s1
    {
      assert s2[b] == s2[perm[perm[b]]] == s1[perm[b]];
    }
    SpreadSameElements(s1, s2);
  }

  /**
    The search is a global optimum: no pair of axis-parallel lines, through
    the data or not, yields a smaller imbalance than the one returned.
   */
  lemma GlobalOptimum(t: Task, r: GreedyResult, X: real, Y: real)
    requires GreedySpec(t, r)
    requires |t.points| > 0
    ensures r.d.Finite? && r.d.value <= SplitImbalance(t, X, Y)
  {
    var i, k := ContinuumReducesToCandidates(t, X, Y);
    var m := Candidates(t);
    var bi, bk :| IsEarliestBest(m, bi, bk) &&
      r == GreedyResult(t.points[bk].x, t.points[bi].y, Finite(m[bi][bk]));
    assert m[bi][bk] <= m[i][k];
  }

  /** A single point of weight `w` sits above-right of its own lines: imbalance |w|. */
  lemma SinglePoint(t: Task, r: GreedyResult)
    requires |t.points| == 1
    requires GreedySpec(t, r)
    ensures r == GreedyResult(t.points[0].x, t.points[0].y,
                              Finite(if t.weights[0] >= 0.0 then t.weights[0] else -t.weights[0]))
  {
    var p, w := t.points[0], t.weights[0];
    var l := SplitLabels(t.points, p.x, p.y);
    assert l == [2];
    var s := BinSums(l, t.weights);
    assert l[..0] == [] && t.weights[..0] == [];
    assert s == [0.0, 0.0, w, 0.0];
    assert MaxOf(s) in s && MinOf(s) in s;
    var m := Candidates(t);
    var bi, bk :| IsEarliestBest(m, bi, bk) &&
      r == GreedyResult(t.points[bk].x, t.points[bi].y, Finite(m[bi][bk]));
    assert bi == 0 && bk == 0;
  }

  /** The unit-weight square with corners (±1, ±1), listed counter-clockwise from (1, 1). */
  function UnitSquare(): Task {
    TaskRecord(4, 2.0,
      [Point(1.0, 1.0), Point(-1.0, 1.0), Point(-1.0, -1.0), Point(1.0, -1.0)],
      [1.0, 1.0, 1.0, 1.0])
  }

  /** The lines x = 1 and y = 1 put one corner of the unit square in each bin. */
  lemma UnitSquareFirstCandidate()
    ensures CandidateD(UnitSquare(), 0, 0) == 0.0
  {
    var t := UnitSquare();
    var l := SplitLabels(t.points, 1.0, 1.0);
    assert l == [2, 3, 0, 1];
    var ws := t.weights;
    assert l[..3] == [2, 3, 0] && [2, 3, 0][..2] == [2, 3] && [2, 3][..1] == [2];
    assert ws[..3] == [1.0, 1.0, 1.0] && [1.0, 1.0, 1.0][..2] == [1.0, 1.0] && [1.0, 1.0][..1] == [1.0];
    LabelWeightsOfSquare();
    assert BinSums(l, ws) == [1.0, 1.0, 1.0, 1.0];
    SpreadZeroIffLevel(BinSums(l, ws));
  }

  /** The bin weights of the labels 2, 3, 0, 1 with unit weights, one point at a time. */
  lemma LabelWeightsOfSquare()
    ensures forall b :: 0 <= b < 4 ==> LabelWeight([2, 3, 0, 1], [1.0, 1.0, 1.0, 1.0], b) == 1.0
  {
    assert [2][..0] == [] && [1.0][..0] == [];
    assert forall b :: LabelWeight([2], [1.0], b) == (if b == 2 then 1.0 else 0.0);
    assert [2, 3][..1] == [2] && [1.0, 1.0][..1] == [1.0];
    assert forall b :: LabelWeight([2, 3], [1.0, 1.0], b) == (if b == 2 || b == 3 then 1.0 else 0.0);
    assert [2, 3, 0][..2] == [2, 3] && [1.0, 1.0, 1.0][..2] == [1.0, 1.0];
    assert forall b :: LabelWeight([2, 3, 0], [1.0, 1.0, 1.0], b) == (if b == 0 || b == 2 || b == 3 then 1.0 else 0.0);
    assert [2, 3, 0, 1][..3] == [2, 3, 0] && [1.0, 1.0, 1.0, 1.0][..3] == [1.0, 1.0, 1.0];
  }

  /** On the unit square the very first candidate, the lines x = 1 and y = 1, is perfect. */
  lemma UnitSquareResult(r: GreedyResult)
    requires GreedySpec(UnitSquare(), r)
    ensures r == GreedyResult(1.0, 1.0, Finite(0.0))
  {
    var t := UnitSquare();
    UnitSquareFirstCandidate();
    var m := Candidates(t);
    var bi, bk :| IsEarliestBest(m, bi, bk) &&
      r == GreedyResult(t.points[bk].x, t.points[bi].y, Finite(m[bi][bk]));
    assert m[0][0] == 0.0;
  }
}

=== FILE: sectors.dfy ===
/**
  The angular binning of the rotating-quadrant search (`AggregateSolver.solve`,
  the body of the loop over the points).

  A point's direction from the pivot is `atan2(dy, dx)`; the rotation offset
  `theta` is subtracted, the difference is wrapped into a turn, and the
  quarter-turn it falls in is the point's sector. `Math.PI` and `Math.atan2`
  are not computed here: they are the two fields of a `Trig`, constrained
  only by π > 0 and, where a lemma needs it, atan2 ∈ (−π, π].

  The source wraps with one `+2π` when the difference is negative
  (`SingleCorrection`). That is one full turn too few once `theta > π`: a
  point whose direction is below `theta − 2π` keeps a negative difference
  and gets sector −1 or −2. `FullNormalization` is the corrected wrap.
 */
module Sectors {
  import opened TaskData
  import opened Bins

  /** The two numeric primitives the search uses, as uninterpreted values. */
  datatype TrigRecord = TrigRecord(pi: real, atan2: (real, real) -> real)

  /** π is positive. */
  type Trig = g: TrigRecord | g.pi > 0.0 witness TrigRecord(1.0, (dy, dx) => 0.0)

  /** atan2 takes its values in (−π, π]. */
  ghost predicate AtanInRange(g: Trig) {
    forall dy, dx :: -g.pi < g.atan2(dy, dx) <= g.pi
  }

  /** How a negative angle difference is brought back into a turn. */
  datatype WrapRule =
    | SingleCorrection   // `if (alpha < 0) alpha += 2π`, as the source does
    | FullNormalization  // reduce modulo 2π, whatever the difference

  /** The wrapped angle of direction `a` measured from the offset `theta`. */
  function Alpha(rule: WrapRule, a: real, theta: real, pi: real): real
    requires pi > 0.0
  {
    var alpha := a - theta;
    match rule
    case SingleCorrection => if alpha < 0.0 then alpha + 2.0 * pi else alpha
    case FullNormalization => alpha - 2.0 * pi * ((alpha / (2.0 * pi)).Floor as real)
  }

  /** `Math.floor(alpha / (Math.PI / 2))`: the quarter-turn the wrapped angle falls in. */
  function SectorIndex(rule: WrapRule, a: real, theta: real, pi: real): int
    requires pi > 0.0
  {
    (Alpha(rule, a, theta, pi) / (pi / 2.0)).Floor
  }

  /** How the quarter index of an angle relates to the angle itself. */
  lemma QuarterIndex(alpha: real, pi: real)
    requires pi > 0.0
    ensures 0 <= (alpha / (pi / 2.0)).Floor <==> 0.0 <= alpha
    ensures (alpha / (pi / 2.0)).Floor < 4 <==> alpha < 2.0 * pi
    ensures -2 <= (alpha / (pi / 2.0)).Floor <==> -pi <= alpha
  {
    var h := pi / 2.0;
    var q := alpha / h;
    assert q * h == alpha;
    assert 0.0 <= q <==> 0.0 <= alpha;
    assert q < 4.0 <==> alpha < 2.0 * pi;
    assert -2.0 <= q <==> -pi <= alpha;
  }

  /**
    The source's wrap: for a direction in (−π, π] and an offset in [0, 2π),
    the index is never above 3 and never below −2, and it is non-negative
    exactly when the direction is at least `theta − 2π`.
   */
  lemma SingleCorrectionRange(a: real, theta: real, pi: real)
    requires pi > 0.0
    requires -pi < a <= pi
    requires 0.0 <= theta < 2.0 * pi
    ensures -2 <= SectorIndex(SingleCorrection, a, theta, pi) < 4
    ensures 0 <= SectorIndex(SingleCorrection, a, theta, pi) <==> a - theta >= -2.0 * pi
  {
    QuarterIndex(Alpha(SingleCorrection, a, theta, pi), pi);
  }

  /** For an offset of at most π the source's single correction is enough. */
  lemma SingleCorrectionInRange(a: real, theta: real, pi: real)
    requires pi > 0.0
    requires -pi < a <= pi
    requires 0.0 <= theta <= pi
    ensures 0 <= SectorIndex(SingleCorrection, a, theta, pi) < 4
  {
    SingleCorrectionRange(a, theta, pi);
  }

  /**
    Two directions that the source puts in no sector: at offset 3π/2 the
    direction −0.9π gets index −1, and at offset 15π/8 the direction −0.95π
    gets index −2. The corrected wrap puts them in sectors 3 and 2.
   */
  lemma SingleCorrectionNegativeIndex(pi: real)
    requires pi > 0.0
    ensures SectorIndex(SingleCorrection, -0.9 * pi, 1.5 * pi, pi) == -1
    ensures SectorIndex(SingleCorrection, -0.95 * pi, 1.875 * pi, pi) == -2
    ensures SectorIndex(FullNormalization, -0.9 * pi, 1.5 * pi, pi) == 3
    ensures SectorIndex(FullNormalization, -0.95 * pi, 1.875 * pi, pi) == 2
  {
    assert Alpha(SingleCorrection, -0.9 * pi, 1.5 * pi, pi) == -0.4 * pi;
    assert -0.4 * pi / (pi / 2.0) == -0.8;
    assert Alpha(SingleCorrection, -0.95 * pi, 1.875 * pi, pi) == -0.825 * pi;
    assert -0.825 * pi / (pi / 2.0) == -1.65;
    assert -2.4 * pi / (2.0 * pi) == -1.2;
    assert Alpha(FullNormalization, -0.9 * pi, 1.5 * pi, pi) == 1.6 * pi;
    assert 1.6 * pi / (pi / 2.0) == 3.2;
    assert -2.825 * pi / (2.0 * pi) == -1.4125;
    assert Alpha(FullNormalization, -0.95 * pi, 1.875 * pi, pi) == 1.175 * pi;
    assert 1.175 * pi / (pi / 2.0) == 2.35;
  }

  /** Multiplying by a positive number keeps signs. */
  lemma ProductSigns(u: real, v: real, w: real)
    requires u >= 0.0 && v > 0.0 && w > 0.0
    ensures u * w >= 0.0 && v * w > 0.0
  {
  }

  /** The corrected wrap lands in [0, 2π) for every direction and offset. */
  lemma FullNormalizationAlphaRange(a: real, theta: real, pi: real)
    requires pi > 0.0
    ensures 0.0 <= Alpha(FullNormalization, a, theta, pi) < 2.0 * pi
  {
    var x := a - theta;
    var tp := 2.0 * pi;
    var q := x / tp;
    var f := q.Floor as real;
    assert f <= q < f + 1.0;
    assert q * tp == x;
    var e := f + 1.0 - q;
    assert e > 0.0;
    var lo := (q - f) * tp;
    var hi := e * tp;
    ProductSigns(q - f, e, tp);
    assert lo == x - f * tp;
    assert hi == tp - lo;
    assert Alpha(FullNormalization, a, theta, pi) == x - f * tp;
  }

  /** The corrected wrap always gives one of the four sectors. */
  lemma FullNormalizationInRange(a: real, theta: real, pi: real)
    requires pi > 0.0
    ensures 0 <= SectorIndex(FullNormalization, a, theta, pi) < 4
  {
    FullNormalizationAlphaRange(a, theta, pi);
    QuarterIndex(Alpha(FullNormalization, a, theta, pi), pi);
  }

  /** Wherever the single correction already lands in [0, 2π), the corrected wrap agrees with it. */
  lemma FullNormalizationAgrees(a: real, theta: real, pi: real)
    requires pi > 0.0
    requires 0.0 <= Alpha(SingleCorrection, a, theta, pi) < 2.0 * pi
    ensures Alpha(FullNormalization, a, theta, pi) == Alpha(SingleCorrection, a, theta, pi)
    ensures SectorIndex(FullNormalization, a, theta, pi) == SectorIndex(SingleCorrection, a, theta, pi)
  {
    var x := a - theta;
    var tp := 2.0 * pi;
    var q := x / tp;
    assert q * tp == x;
    if x < 0.0 {
      assert -1.0 <= q < 0.0;
      assert q.Floor == -1;
    } else {
      assert 0.0 <= q < 1.0;
      assert q.Floor == 0;
    }
  }

  /** Direction of point `j` of `t` seen from the pivot `c`. */
  function Direction(t: Task, c: Point, g: Trig, j: int): real
    requires 0 <= j < |t.points|
  {
    g.atan2(t.points[j].y - c.y, t.points[j].x - c.x)
  }

  /** A direction lies in (−π, π], as every value of atan2 does. */
  lemma DirectionRange(t: Task, c: Point, g: Trig, j: int)
    requires AtanInRange(g)
    requires 0 <= j < |t.points|
    ensures -g.pi < Direction(t, c, g, j) <= g.pi
  {
    var dy, dx := t.points[j].y - c.y, t.points[j].x - c.x;
    assert -g.pi < g.atan2(dy, dx) <= g.pi;
  }

  /** The sector of every point at offset `theta`, in order. */
  function SectorLabels(t: Task, c: Point, theta: real, g: Trig, rule: WrapRule): (l: seq<int>)
    ensures |l| == |t.points|
  {
    seq(|t.points|, j requires 0 <= j < |t.points| => SectorIndex(rule, Direction(t, c, g, j), theta, g.pi))
  }

  /**
    Which sector indices the labels can take. Under the corrected wrap every
    point is in one of the four sectors. Under the source's wrap, with atan2
    in (−π, π], an offset in [0, 2π) keeps every index in −2..3, so no point
    is ever labelled 4 or above, and an offset in [0, π] keeps every index in
    0..3.
   */
  lemma SectorLabelsRange(t: Task, c: Point, theta: real, g: Trig, rule: WrapRule)
    ensures rule == FullNormalization ==>
      forall j :: 0 <= j < |t.points| ==> 0 <= SectorLabels(t, c, theta, g, rule)[j] < 4
    ensures AtanInRange(g) && 0.0 <= theta < 2.0 * g.pi ==>
      forall j :: 0 <= j < |t.points| ==> -2 <= SectorLabels(t, c, theta, g, rule)[j] < 4
    ensures AtanInRange(g) && 0.0 <= theta <= g.pi ==>
      forall j :: 0 <= j < |t.points| ==> 0 <= SectorLabels(t, c, theta, g, rule)[j] < 4
  {
    var l := SectorLabels(t, c, theta, g, rule);
    forall j | 0 <= j < |t.points|
      ensures rule == FullNormalization ==> 0 <= l[j] < 4
      ensures AtanInRange(g) && 0.0 <= theta < 2.0 * g.pi ==> -2 <= l[j] < 4
      ensures AtanInRange(g) && 0.0 <= theta <= g.pi ==> 0 <= l[j] < 4
    {
      var a := Direction(t, c, g, j);
      if rule == FullNormalization {
        FullNormalizationInRange(a, theta, g.pi);
      } else if AtanInRange(g) && 0.0 <= theta < 2.0 * g.pi {
        DirectionRange(t, c, g, j);
        SingleCorrectionRange(a, theta, g.pi);
        if theta <= g.pi {
          SingleCorrectionInRange(a, theta, g.pi);
        }
      }
    }
  }

  /** The imbalance `D` of the four sector sums at offset `theta`. */
  function StepImbalance(t: Task, c: Point, theta: real, g: Trig, rule: WrapRule): real
  {
    Spread(BinSums(SectorLabels(t, c, theta, g, rule), t.weights))
  }

  /** The loop over the points for one offset, then `max − min` of the four sums. */
  method StepImbalanceOf(t: Task, c: Point, theta: real, g: Trig, rule: WrapRule) returns (d: real)
    ensures d == StepImbalance(t, c, theta, g, rule)
    ensures d >= 0.0
  {
    var labels := SectorLabels(t, c, theta, g, rule);
    var sums := Accumulate(labels, t.weights);
    assert sums == BinSums(labels, t.weights);
    d := Spread(sums);
  }

  /** A positive factor cancels from both sides of an equation. */
  lemma CancelPositive(u: real, v: real, w: real)
    requires w > 0.0 && u * w == v * w
    ensures u == v
  {
    assert (u - v) * w == 0.0;
  }

  /**
    While both offsets stay within [0, π], turning by a further quarter turn
    only renames the source's sectors: sector `i` becomes sector `i − 1`,
    and sector 0 becomes sector 3.
   */
  lemma QuarterShift(a: real, theta: real, pi: real)
    requires pi > 0.0
    requires -pi < a <= pi
    requires 0.0 <= theta <= pi / 2.0
    ensures SectorIndex(SingleCorrection, a, theta + pi / 2.0, pi)
            == (SectorIndex(SingleCorrection, a, theta, pi) + 3) % 4
  {
    var h := pi / 2.0;
    var al := Alpha(SingleCorrection, a, theta, pi);
    var al2 := Alpha(SingleCorrection, a, theta + h, pi);
    SingleCorrectionInRange(a, theta, pi);
    QuarterIndex(al, pi);
    if al >= h {
      assert al2 == al + -1.0 * h;
      DivShift(al, h, -1);
    } else {
      assert al2 == al + 3.0 * h;
      DivShift(al, h, 3);
    }
    QuarterIndex(al2, pi);
  }

  /** Adding `c` quarter turns adds `c` to the quarter index. */
  lemma DivShift(u: real, h: real, c: int)
    requires h > 0.0
    ensures ((u + c as real * h) / h).Floor == (u / h).Floor + c
  {
    var q := u / h;
    assert q * h == u;
    assert (q + c as real) * h == u + c as real * h;
    CancelPositive((u + c as real * h) / h, q + c as real, h);
  }

  /**
    For offsets in [0, π/2], the source's imbalance at `theta + π/2` equals
    the imbalance at `theta`: the sector sums are the same four values in
    another order.
   */
  lemma QuarterTurnSameImbalance(t: Task, c: Point, theta: real, g: Trig)
    requires AtanInRange(g)
    requires 0.0 <= theta <= g.pi / 2.0
    ensures StepImbalance(t, c, theta + g.pi / 2.0, g, SingleCorrection)
            == StepImbalance(t, c, theta, g, SingleCorrection)
  {
    var l1 := SectorLabels(t, c, theta, g, SingleCorrection);
    var l2 := SectorLabels(t, c, theta + g.pi / 2.0, g, SingleCorrection);
    var perm := [3, 0, 1, 2];
    SectorLabelsRange(t, c, theta, g, SingleCorrection);
    forall j | 0 <= j < |l1|
      ensures l2[j] == perm[l1[j]]
    {
      DirectionRange(t, c, g, j);
      QuarterShift(Direction(t, c, g, j), theta, g.pi);
    }
    var s1 := BinSums(l1, t.weights);
    var s2 := BinSums(l2, t.weights);
    forall b | 0 <= b < 4
      ensures s2[perm[b]] == s1[b]
    {
      RelabelMovesWeight(l1, l2, t.weights, perm, b);
    }
    assert forall i :: 0 <= i < 4 ==> s1[i] in s2 by {
      assert s1[0] == s2[3] && s1[1] == s2[0] && s1[2] == s2[1] && s1[3] == s2[2];
    }
    SpreadSameElements(s1, s2);
  }

  /**
    The four sector sums hold the whole weight whenever every point lands in
    a sector: always under the corrected wrap, and under the source's wrap
    for offsets in [0, π].
   */
  lemma SectorsHoldAllWeight(t: Task, c: Point, theta: real, g: Trig, rule: WrapRule)
    requires AtanInRange(g)
    requires rule == FullNormalization || 0.0 <= theta <= g.pi
    ensures var s := BinSums(SectorLabels(t, c, theta, g, rule), t.weights);
      s[0] + s[1] + s[2] + s[3] == Sum(t.weights)
  {
    var l := SectorLabels(t, c, theta, g, rule);
    SectorLabelsRange(t, c, theta, g, rule);
    NothingDropped(l, t.weights);
    BinSumsPartition(l, t.weights);
  }

  /**
    Under the source's wrap, with non-negative weights and an offset in
    [0, 2π), the four sector sums fall short of the total weight exactly when
    some point of positive weight points below `theta − 2π`.
   */
  lemma SingleCorrectionLosesWeight(t: Task, c: Point, theta: real, g: Trig)
    requires AtanInRange(g)
    requires forall j :: 0 <= j < |t.weights| ==> t.weights[j] >= 0.0
    requires 0.0 <= theta < 2.0 * g.pi
    ensures var s := BinSums(SectorLabels(t, c, theta, g, SingleCorrection), t.weights);
      s[0] + s[1] + s[2] + s[3] < Sum(t.weights) <==>
        exists j :: 0 <= j < |t.points| && t.weights[j] > 0.0 && Direction(t, c, g, j) - theta < -2.0 * g.pi
  {
    var l := SectorLabels(t, c, theta, g, SingleCorrection);
    forall j | 0 <= j < |l|
      ensures !(0 <= l[j] < 4) <==> Direction(t, c, g, j) - theta < -2.0 * g.pi
    {
      DirectionRange(t, c, g, j);
      SingleCorrectionRange(Direction(t, c, g, j), theta, g.pi);
    }
    DroppedWeightPositive(l, t.weights);
    BinSumsPartition(l, t.weights);
  }
}

=== FILE: task_data.dfy ===
/**
  The weighted point set both solvers read: a count, the radius the points
  were generated in, the points and one weight per point. The solvers only
  read it; nothing in this model writes to a task.
 */
module TaskData {

  datatype Point = Point(x: real, y: real)

  /** The record as stored: the count `n` is kept apart from the two lists. */
  datatype TaskRecord = TaskRecord(n: int, radius: real, points: seq<Point>, weights: seq<real>)
  {
    /** The lists are index-aligned and `n` is their common length. */
    predicate Valid() {
      n == |points| && n == |weights|
    }
  }

  /** A task whose lengths agree; the radius is provenance only and is not constrained. */
  type Task = t: TaskRecord | t.Valid() witness TaskRecord(0, 0.0, [], [])

  /** Left-to-right sum, the shape of `reduce((a, b) => a + b, 0)`. */
  function Sum(ws: seq<real>): real
    decreases |ws|
  {
    if |ws| == 0 then 0.0 else Sum(ws[..|ws| - 1]) + ws[|ws| - 1]
  }

  /** The x coordinates of the points, in order. */
  function Xs(pts: seq<Point>): (xs: seq<real>)
    ensures |xs| == |pts|
    ensures forall j :: 0 <= j < |pts| ==> xs[j] == pts[j].x
  {
    seq(|pts|, j requires 0 <= j < |pts| => pts[j].x)
  }

  /** The y coordinates of the points, in order. */
  function Ys(pts: seq<Point>): (ys: seq<real>)
    ensures |ys| == |pts|
    ensures forall j :: 0 <= j < |pts| ==> ys[j] == pts[j].y
  {
    seq(|pts|, j requires 0 <= j < |pts| => pts[j].y)
  }

  /** Σ vs[j]·ws[j], accumulated left to right. */
  function WeightedSum(vs: seq<real>, ws: seq<real>): real
    requires |vs| == |ws|
    decreases |ws|
  {
    if |ws| == 0 then 0.0
    else WeightedSum(vs[..|ws| - 1], ws[..|ws| - 1]) + vs[|ws| - 1] * ws[|ws| - 1]
  }

  /** Σ (vs[j] − c)·ws[j]: the weighted deviation of the values from `c`. */
  function WeightedDeviation(vs: seq<real>, ws: seq<real>, c: real): real
    requires |vs| == |ws|
    decreases |ws|
  {
    if |ws| == 0 then 0.0
    else WeightedDeviation(vs[..|ws| - 1], ws[..|ws| - 1], c) + (vs[|ws| - 1] - c) * ws[|ws| - 1]
  }

  /** The deviation from `c` is the weighted sum less `c` times the total weight. */
  lemma {:induction false} DeviationSplits(vs: seq<real>, ws: seq<real>, c: real)
    requires |vs| == |ws|
    ensures WeightedDeviation(vs, ws, c) == WeightedSum(vs, ws) - c * Sum(ws)
    decreases |ws|
  {
    if |ws| > 0 {
      var m := |ws| - 1;
      DeviationSplits(vs[..m], ws[..m], c);
    }
  }
}
